=== FILE: README.md ===
# Clinic chatbot: intent routing and reply selection

This project models the decision logic of a clinic's customer-service chatbot.
A message is classified into an intent category, such as greeting, help,
clinic information, cancellation, exams or pricing, and is answered with a
pre-written text. The pipeline has five steps:

1. The message is normalised: `strip()` and then `lower()`.
2. A statistical classifier is trusted when its confidence reaches 0.4 and
   it names a category the response table knows.
3. Otherwise a fallback runs. First it scans an ordered keyword table, where
   the first keyword found as a substring wins. If no keyword is found, it
   looks for the most similar known phrase, keeping the first maximum and
   accepting it only from a ratio of 0.5.
4. Otherwise the answer is the unknown category, `DESCONHECIDO`, with the
   "used the knowledge base" flag cleared.
5. The reply text depends on the user's previous turn. A category's
   continuation text is used only when the previous turn was a greeting or a
   help request and the category has such a text; otherwise its initial text
   is used. Every turn is appended to that user's history.

The same pipeline exists twice in the source: as module-level functions in
`main.py` and as the class `ChatbotClinica` in `chatbot_core.py`. The model
defines it once, with the response table and the keyword table as
parameters. It then instantiates it with each file's own tables:

- `MainScript`: 25 keywords and the long texts.
- `ChatbotCore`: 7 keywords and the short texts.

The knowledge base is a pair of parallel lists: training phrases and their
categories. It is repaired after loading by cutting both lists to the shorter
length. Saving refuses mismatched lists. In `main.py`, training refuses
mismatched or empty lists.

Modules, in dependency order:

- `Options`: `Option` and `Result`.
- `Text`: Python's `str.strip()`, `str.lower()` and the substring test `in`.
- `KnowledgeBase`: the corpus, its repair and the save guard.
- `Classifier`: probabilities, predictions and the training checks.
- `History`: per-user append-only logs.
- `ResponsePolicy`: the category constants, the response table and
  `obter_texto_resposta`.
- `FallbackMatcher`: the keyword pass, the similarity arg-max and
  `obter_resposta_fallback`.
- `Orchestrator`: normalisation, the confidence decision and a whole turn
  including the history update.
- `MainScript` and `ChatbotCore`: the two instantiations.

The classifier and difflib's `SequenceMatcher.ratio` are parameters of
function type. Their results lie in [0, 1]: the `Probability` subset type
encodes these bounds. Reflexivity of the ratio (`ratio(a, a) == 1.0`) is
assumed only by the lemma that needs it.

Two behaviours of the code shape the training and start-up contracts:

- `main.py` refuses an empty training set as well as a mismatched one
  (main.py:172-176), and so does `Classifier.Train`.
- A readable cached model starts the bot without any check on the data
  (main.py:196-200), so `MainScript.Startup` succeeds on any corpus when a
  cached model is given. `chatbot_core.py` makes no training checks at all
  (chatbot_core.py:70-76).

## Model

| member | source | states |
|---|---|---|
| KnowledgeBase.Repair | main.py:105-114 | The repaired lists are consistent. Each has length min(phrases, categories) and is a prefix of its input. Equal-length input is returned unchanged. |
| KnowledgeBase.RepairIdempotent | main.py:188-194 | Repairing a repaired corpus changes nothing, so the second repair in the model loader is harmless. |
| KnowledgeBase.Save | main.py:93-102 | Mismatched lists leave the persisted store as it was. Otherwise the store holds exactly the given lists. |
| KnowledgeBase.SaveKeepsStoreConsistent | main.py:96-102 | A store written only through the guarded save always holds equal-length lists. |
| KnowledgeBase.SaveThenRepairRoundTrip | main.py:93-120 | Saving equal-length lists and loading them back through the repair returns the saved lists. |
| Classifier.Train | main.py:166-176 | The explicit checks pass exactly when the lengths are equal and non-zero. A mismatch is reported first, with both lengths. Two empty lists give the no-data error. |
| Classifier.TrainAfterRepair | main.py:188-195 | On the repaired corpus only the no-data check can fire. The explicit checks pass exactly when both loaded lists are non-empty. |
| History.Load | main.py:307-313 | A user without a stored log loads the empty log. Otherwise the stored log is loaded. |
| History.Append | chatbot_core.py:139-153 | The user's new log is the old log plus the record at the end. Every other user's log is untouched, and the user becomes a key. |
| History.AppendOnly | chatbot_core.py:143-149 | The old log is a prefix of the new one, which is exactly one longer and ends with the record. |
| History.AppendIsolatesUsers | main.py:315-330 | Appending for one user never changes what another user loads. |
| ResponsePolicy.ReplyText | main.py:225-241 | An unknown category gets DESCONHECIDO's initial text, and an empty history gets the category's initial text. The continuation is used when the entry has one and the last turn's category is SAUDAÇÃO or AJUDA. Otherwise the initial text is used. |
| ResponsePolicy.LastCategory | main.py:233-235 | The previous category is absent for an empty history, and otherwise it is the last record's category, which may itself be absent. |
| ResponsePolicy.ReplyTextFromTable | main.py:225-241 | Every reply text is an initial or continuation text of some entry of the table. |
| ResponsePolicy.ReplyDependsOnlyOnLastCategory | main.py:233-241 | Two non-empty histories whose last turns carry the same category give the same reply. |
| ResponsePolicy.MissingCategoryGivesInitial | main.py:233-235 | A last turn with no `categoria` gets the initial text. |
| ResponsePolicy.NoContinuationGivesInitial | chatbot_core.py:101-104 | An entry without a continuation always yields its initial text, whatever the history. |
| ResponsePolicy.ContinuationExactlyWhen | main.py:237-241 | When the continuation differs from the initial text, the reply is the continuation if and only if the policy's condition holds. |
| FallbackMatcher.FirstHit | main.py:259-262 | The index found holds a keyword that occurs in the message, and no earlier keyword occurs. No index means that no keyword occurs. |
| FallbackMatcher.KeywordPass | main.py:259-262 | A result is the category of a keyword found in the message. No result happens exactly when no keyword occurs. |
| FallbackMatcher.KeywordPassFirstWins | chatbot_core.py:114-116 | When keyword i occurs and no earlier keyword does, the pass answers with keyword i's category, whatever later keywords match. |
| FallbackMatcher.Scores | main.py:266-268 | There is one score per pair that `zip` forms, so as many as the shorter list. Each is the ratio between the message and the lower-cased phrase at the same position. |
| FallbackMatcher.MostSimilar | main.py:264-271 | The kept score bounds every score. A kept position is the first that reaches the maximum, which is positive. Keeping nothing means the score is still 0. |
| FallbackMatcher.MostSimilarNoneIffNoPositive | main.py:264-271 | The loop keeps no phrase exactly when no ratio is positive. |
| FallbackMatcher.SimilarityPass | main.py:273-277 | A match exists exactly when the first maximum reaches 0.5 and its category has a response entry. A matched category is always a key. |
| FallbackMatcher.SimilarityPassAtFirstMaximum | chatbot_core.py:118-130 | With position i the first maximum, the pass returns i's category when its score is at least 0.5 and the category is known, and nothing otherwise. |
| FallbackMatcher.SimilarityPassBelowThreshold | main.py:273-277 | If every phrase scores below 0.5, there is no similarity match. |
| FallbackMatcher.IdenticalPhraseMatches | main.py:266-273 | With a reflexive ratio, a message equal to a known phrase matches that phrase's category. This holds when no earlier phrase scores 1.0 and the category is a key. |
| FallbackMatcher.Fallback | main.py:243-277 | A keyword hit decides the category. Without one, the similarity pass decides. A hit's text is the policy's text for its category. With a well-formed keyword table, the category is a key. |
| Orchestrator.Normalize | main.py:288 | The normalised message is `Lower(raw)` with its surrounding whitespace removed. It is no longer than the input, is its own lower-case form, and neither starts nor ends with whitespace. |
| Orchestrator.Confident | main.py:295 | A trusted prediction always names a key of the response table. A confidence below 0.4 or an unknown category is never trusted. |
| Orchestrator.Respond | main.py:279-305 | A confident prediction of a known category is used with the policy's text. Otherwise the flag is set exactly when the fallback matches, with the fallback's category. With the flag cleared the reply is DESCONHECIDO's. |
| Orchestrator.RespondFollowsPolicy | main.py:295-305 | In a well-formed bot every reply's category is a key, and its text is the policy's text for that category. |
| Orchestrator.UnmatchedMessageIsUnknown | chatbot_core.py:174-183 | An unsure classifier, no keyword and no phrase scoring 0.5 give DESCONHECIDO's initial text with the flag false. |
| Orchestrator.KeywordPassDecides | main.py:295-302 | With an unsure classifier, the keyword pass's category is the reply's category, with its policy text and the flag set. |
| Orchestrator.HandleMessage | chatbot_core.py:155-186 | The reply is decided on the user's loaded history. The user's log grows by one record holding the raw message and the returned text and category. Other users are untouched. |
| Orchestrator.SecondTurnSeesFirst | main.py:332-346 | After a turn, the user's last category is that turn's category. The next turn is decided on the history extended by it, and two turns add two records. |
| Text.Strip | main.py:288 | The result is a slice of the input with only whitespace around it, and it neither starts nor ends with whitespace. This holds for the whole Python `isspace` set. |
| Text.Contains | main.py:260 | Python's `palavra in mensagem_lower`: a contained needle is no longer than the haystack, and the empty needle is contained in every string. |
| Text.StripIdempotent | chatbot_core.py:161 | Stripping twice is stripping once. |
| Text.Lower | main.py:248 | The length is kept, each character is lowered on its own, and no capital remains. |
| Text.LowerIdempotent | main.py:248 | Lowering the already lowered message in the fallback changes nothing. |
| Text.LowerOfStripped | main.py:288 | `strip()` followed by `lower()` is a slice of the lower-cased message with only whitespace around it. |
| MainScript.MainBot | main.py:123-163 | The function version's state holds the given corpus and model and its own tables. Every keyword category of the 25-entry table has a response entry. |
| MainScript.Startup | main.py:213-220 | Start-up repairs the corpus, and a cached model always starts the bot. Without a cached model, start-up succeeds exactly when both loaded lists are non-empty and the library's fit succeeds. Empty lists fail with the no-data error, and a failing fit fails with the fit error. |
| MainScript.ServiceEntry | main.py:332-346 | The reply is the orchestrator's decision for the bot built from the known phrases and the model. Its category is a key of `RESPOSTAS_PRE_DEFINIDAS`, with the policy's text. The user's history grows by that turn, and others are untouched. |
| MainScript.MainContinuationExactlyWhen | main.py:123-163 | For every category with a continuation, the continuation is chosen exactly after a SAUDAÇÃO or AJUDA turn. |
| MainScript.MainGreetingAlwaysInitial | main.py:124-126 | A greeting always gets its initial text. |
| MainScript.MainHelpAfterGreetingOrPricing | main.py:237-241 | Help after a greeting gets the continuation. Help after a pricing turn gets the initial text. |
| MainScript.MainKeywordCancelBeatsGreeting | main.py:250-262 | "oi, quero cancelar" is routed to CANCELAMENTO, because "cancelar" precedes "oi". |
| MainScript.MainKeywordPlanIsCancellation | main.py:250-262 | "quais planos" is routed to CANCELAMENTO, because "plano" precedes "valor". |
| MainScript.MainKeywordBomDia | main.py:250-262 | "bom dia!" misses the first seventeen keywords and is routed to SAUDAÇÃO by the eighteenth, "bom dia". |
| MainScript.MainKeywordAjuda | main.py:250-262 | "preciso de ajuda" misses the first eleven keywords and is routed to AJUDA. |
| MainScript.MainFirstTurnGreeting | main.py:332-346 | A new user's "Bom dia!" gets the greeting's initial text with the flag set, and the history then holds exactly that turn. This assumes the model is unsure or predicts a greeting. |
| MainScript.MainSecondTurnHelpContinues | main.py:332-346 | "preciso de ajuda" right after a greeting gets the help continuation, and the history then holds two turns. |
| ChatbotCore.CoreBot | chatbot_core.py:11-20 | The class holds the repaired corpus and its own tables, and is well formed. |
| ChatbotCore.ProcessMessage | chatbot_core.py:155-196 | On any well-formed bot, such as the one the constructor builds, `success` is always true. The data is the orchestrator's decision, with a category that is a key of the bot's table and the policy's text for it. The appended record holds the raw message and the same text and category. |
| ChatbotCore.CoreGreetingAndUnknownAlwaysInitial | chatbot_core.py:92-104 | SAUDAÇÃO and DESCONHECIDO always get their initial texts. |
| ChatbotCore.CoreContinuationExactlyWhen | chatbot_core.py:24-50 | In the class's table, the continuation is chosen exactly after a SAUDAÇÃO or AJUDA turn. |
| ChatbotCore.CoreKeywordCancelBeatsGreeting | chatbot_core.py:109-116 | "oi, quero cancelar" is routed to CANCELAMENTO. |
| ChatbotCore.CoreKeywordHelpBeatsGreeting | chatbot_core.py:109-116 | "oi, preciso de ajuda" is routed to AJUDA, because "ajuda" precedes "oi" in the 7-entry table. |
| ChatbotCore.CoreHelpAfterGreeting | chatbot_core.py:155-196 | With an unsure model, "oi, preciso de ajuda" after a greeting gets the help continuation with the flag set, and success is reported. |

## Left out

- TF-IDF vectorisation and Naive Bayes training and prediction are a floating-point library. They are the `model` parameter: a function from the normalised message to a category and a probability in [0, 1].
- difflib's `SequenceMatcher.ratio` is a foreign algorithm with junk heuristics. It is the `Ratio` parameter, bounded to [0, 1].
- The joblib model cache, and the choice between loading and retraining, are file I/O. `MainScript.Startup` takes the cached model as an optional parameter. `ChatbotCore.CoreBot` takes the model as given.
- JSON reading and writing, `os.path` and `makedirs`: the knowledge base is a value and the histories are a map from user id to log.
- A history file that cannot be read is not modelled.
- `datetime.now()`: the record timestamp is an opaque `now` parameter. The timestamp in the class's response dictionary is not modelled.
- The default user id `"anonimo"` is a Python default argument. The model always takes a user id.
- The seed corpora used when no knowledge-base file exists are data, not logic. The class's seed also contains Python `...` placeholders.
- The Flask endpoints, CORS and HTTP status codes in `servidor_api.py` are web plumbing. So are the console loop and all `print` logging.
- Text.Lower: only ASCII and Latin-1 capitals are lowered. Python's `lower()` covers all of Unicode, including characters whose lower-case form has a different length.
- Categories read from the knowledge-base file are assumed to be strings. The JSON could hold other values, which the source would compare by equality.
- The similarity threshold 0.5 and confidence threshold 0.4 are constants. The source never passes other values to the parameters that carry them.
- History.Append: the store is keyed by user id. The source keys a history by its file path, `os.path.join(DIRETORIO_HISTORICO_USUARIOS, f"{id}_historico.json")` (main.py:309, chatbot_core.py:133). So ids that name the same file share one log in the source but not in the model: `"x"` and `"./x"`, ids differing only in case on a case-insensitive file system, and absolute paths, which also write outside the directory. "Other users are untouched" holds per file, not per id string.
- MainScript.Startup: when the library's own fit raises, the model records only that it failed. It does not model which corpora make sklearn raise, for instance a corpus with no token of two or more word characters, which gives an empty vocabulary.
- Concurrent requests for the same user, which race on the history file, are not modelled. Each turn is one atomic transition of the store.

=== FILE: chatbot_core.dfy ===
/**
 The class version of the chatbot in `chatbot_core.py` (`ChatbotClinica`):
 its own shorter response table, its 7-keyword fallback table, construction
 (load, repair, model) and `processar_mensagem`, which always reports success.
 */
module ChatbotCore {
  import opened Options
  import opened Text
  import opened KnowledgeBase
  import opened Classifier
  import opened History
  import opened ResponsePolicy
  import opened FallbackMatcher
  import opened Orchestrator

  /** The texts of `_carregar_respostas_pre_definidas`. */
  const GreetingText := "Olá! Seja bem-vindo à nossa clínica. Como posso ajudar você hoje?"
  const HelpText := "Claro! Posso ajudar com informações, agendamentos, ou dúvidas gerais. O que você precisa?"
  const HelpMore := "Em que mais posso ajudar agora?"
  const InformationText := "📋 Horário: Seg-Sex 7h-19h | Tel: (11) 3333-4444 | End: Rua Saúde, 123"
  const InformationMore := "Precisa de mais alguma informação?"
  const CancellationText := "Para cancelamento, vou transferir para um atendente..."
  const CancellationMore := "Transferindo para atendente..."
  const ExamsText := "Serviços: Agendamento e consulta de resultados de exames."
  const ExamsMore := "Sobre exames, em que mais posso ajudar?"
  const PricingText := "Para orçamentos, consulte diretamente na clínica."
  const PricingMore := "Consulte na clínica para valores precisos."
  const UnknownText := "Desculpe, não entendi. Pode reformular?"

  /** `_carregar_respostas_pre_definidas`. */
  const CoreResponses: Table := map[
    Greeting := Entry(GreetingText, None),
    Help := Entry(HelpText, Some(HelpMore)),
    Information := Entry(InformationText, Some(InformationMore)),
    Cancellation := Entry(CancellationText, Some(CancellationMore)),
    Exams := Entry(ExamsText, Some(ExamsMore)),
    Pricing := Entry(PricingText, Some(PricingMore)),
    Unknown := Entry(UnknownText, None)
  ]

  /** `palavras_chave_prioritarias` of the class's `obter_resposta_fallback`, in declaration order. */
  const CoreKeywords: KeywordTable := [
    ("cancelar", Cancellation), ("exame", Exams), ("horário", Information),
    ("ajuda", Help), ("oi", Greeting), ("orçamento", Pricing), ("preço", Pricing)
  ]

  /**
   The constructor: the loaded lists are repaired before anything uses them,
   and the tables are the class's own. `model` stands for the classifier the
   constructor loads from its cache or fits; nothing checks the lists first.
   */
  function CoreBot(loaded: Corpus, model: string -> Prediction): (bot: Bot)
    ensures bot.responses == CoreResponses && bot.keywords == CoreKeywords && bot.model == model
    ensures bot.kb == Repair(loaded.phrases, loaded.categories) && bot.kb.Consistent()
    ensures WellFormed(bot)
  {
    assert forall i :: 0 <= i < |CoreKeywords| ==> CoreKeywords[i].1 in CoreResponses;
    Bot(CoreResponses, CoreKeywords, Repair(loaded.phrases, loaded.categories), model)
  }

  /** The dictionary `processar_mensagem` returns, without its timestamp. */
  datatype ApiResponse = ApiResponse(success: bool, data: Reply)

  /**
   `processar_mensagem` on a constructed bot: the response always reports
   success and carries the orchestrator's decision, which is a category of the
   bot's table answered with the policy's text; the user's history grows by a
   record holding the raw message with that same text and category, and no
   other user's history changes.
   */
  function ProcessMessage(bot: Bot, ratio: Ratio, store: Store, user: string, raw: string, now: string): (r: (Store, ApiResponse))
    requires WellFormed(bot)
    ensures r.1.success
    ensures r.1.data == Respond(bot, ratio, raw, Load(store, user))
    ensures r.1.data.category in bot.responses
    ensures r.1.data.text == ReplyText(bot.responses, r.1.data.category, Load(store, user))
    ensures Load(r.0, user) == Load(store, user) + [Record(raw, r.1.data.text, Some(r.1.data.category), now)]
    ensures forall u :: u != user ==> Load(r.0, u) == Load(store, u)
  {
    RespondFollowsPolicy(bot, ratio, raw, Load(store, user));
    var (store', reply) := HandleMessage(bot, ratio, store, user, raw, now);
    (store', ApiResponse(true, reply))
  }

  /** A greeting and the unknown category always get their initial texts: their entries have no continuation. */
  lemma CoreGreetingAndUnknownAlwaysInitial(history: Log)
    ensures ReplyText(CoreResponses, Greeting, history) == GreetingText
    ensures ReplyText(CoreResponses, Unknown, history) == UnknownText
  {
    NoContinuationGivesInitial(CoreResponses, Greeting, history);
    NoContinuationGivesInitial(CoreResponses, Unknown, history);
  }

  /** Every continuation text of the class's table differs from its initial text, so the policy's choice can be read off the reply. */
  lemma CoreContinuationExactlyWhen(category: string, history: Log)
    requires category in CoreResponses && CoreResponses[category].continuation.Some?
    ensures ReplyText(CoreResponses, category, history) == CoreResponses[category].continuation.value
      <==> |history| > 0 && InvitesContinuation(LastCategory(history))
  {
    ContinuationExactlyWhen(CoreResponses, category, history);
  }

  /** "oi, quero cancelar": "cancelar" is the first keyword of the table, so the cancellation wins over the greeting. */
  lemma CoreKeywordCancelBeatsGreeting()
    ensures KeywordPass(CoreKeywords, "oi, quero cancelar") == Some(Cancellation)
  {
    FoundAt("oi, quero cancelar", "cancelar", 10);
    KeywordPassFirstWins(CoreKeywords, "oi, quero cancelar", 0);
  }

  /** "oi, preciso de ajuda": "ajuda" is declared before "oi" and no earlier keyword occurs, so the help request wins. */
  lemma CoreKeywordHelpBeatsGreeting()
    ensures KeywordPass(CoreKeywords, "oi, preciso de ajuda") == Some(Help)
  {
    var m := "oi, preciso de ajuda";
    MissingChar(m, "cancelar", 2);
    MissingChar(m, "exame", 1);
    MissingChar(m, "horário", 0);
    FoundAt(m, "ajuda", 15);
    KeywordPassFirstWins(CoreKeywords, m, 3);
  }

  /** "oi, preciso de ajuda" is already normalised. */
  lemma NormalizeOiPrecisoDeAjuda()
    ensures Normalize("oi, preciso de ajuda") == "oi, preciso de ajuda"
  {
    var m := "oi, preciso de ajuda";
    assert Strip(m) == m;
    LowerFixesLowerCase(m);
  }

  /**
   A message that the class's model is unsure about and that holds "ajuda" but
   no earlier keyword, sent right after a greeting, gets the help continuation
   with the flag set, and the response reports success.
   */
  lemma CoreHelpAfterGreeting(loaded: Corpus, model: string -> Prediction, ratio: Ratio, store: Store, user: string, m1: string, r1: string, t1: string, now: string)
    requires Load(store, user) == [Record(m1, r1, Some(Greeting), t1)]
    requires !Confident(CoreBot(loaded, model), model("oi, preciso de ajuda"))
    ensures ProcessMessage(CoreBot(loaded, model), ratio, store, user, "oi, preciso de ajuda", now).1
      == ApiResponse(true, Reply(HelpMore, Help, true))
  {
    var bot := CoreBot(loaded, model);
    var m := "oi, preciso de ajuda";
    NormalizeOiPrecisoDeAjuda();
    CoreKeywordHelpBeatsGreeting();
    KeywordPassDecides(bot, ratio, m, Load(store, user), Help);
  }
}

=== FILE: classifier.dfy ===
/**
 The intent classifier, seen from outside: the checks made before training and
 the shape of a prediction. The statistical model itself is an oracle.
 */
module Classifier {
  import opened Options
  import opened KnowledgeBase

  /** A posterior probability. */
  type Probability = r: real | 0.0 <= r <= 1.0 witness 0.0

  /** The classifier's arg-max class for a message and its posterior probability. */
  datatype Prediction = Prediction(category: string, confidence: Probability)

  /**
   The two `ValueError`s `criar_e_treinar_pipeline_ml` raises before fitting,
   and an error raised by the fitting library itself (for instance a corpus
   with no token the vectoriser keeps, hence an empty vocabulary).
   */
  datatype TrainingError = LengthMismatch(phrases: nat, categories: nat) | NoTrainingData | FitFailed

  /**
   The checks of `criar_e_treinar_pipeline_ml`: a length mismatch is reported
   first, then an empty corpus; when both pass, the success value records the
   whole corpus the model is then fitted on, and that fit may still fail.
   */
  function Train(phrases: seq<string>, categories: seq<string>): (r: Result<Corpus, TrainingError>)
    ensures r.Success? <==> |phrases| == |categories| && |phrases| > 0
    ensures r.Success? ==> r.value == Corpus(phrases, categories)
    ensures |phrases| != |categories| ==> r == Failure(LengthMismatch(|phrases|, |categories|))
    ensures |phrases| == |categories| == 0 ==> r == Failure(NoTrainingData)
  {
    if |phrases| != |categories| then Failure(LengthMismatch(|phrases|, |categories|))
    else if |phrases| == 0 then Failure(NoTrainingData)
    else Success(Corpus(phrases, categories))
  }

  /**
   Start-up trains on the repaired corpus, so the length check can never fire
   there: the explicit checks pass exactly when both loaded lists are
   non-empty; the fit itself may still fail.
   */
  lemma TrainAfterRepair(phrases: seq<string>, categories: seq<string>)
    ensures var c := Repair(phrases, categories);
      var r := Train(c.phrases, c.categories);
      (r.Success? <==> |phrases| > 0 && |categories| > 0)
      && (r.Failure? ==> r.error == NoTrainingData)
  {
  }
}

=== FILE: fallback_matcher.dfy ===
/**
 The fallback used when the classifier is not confident: an ordered keyword
 table where the first keyword found in the message wins, then a search for
 the most similar known phrase.
 */
module FallbackMatcher {
  import opened Options
  import opened Text
  import opened KnowledgeBase
  import opened Classifier
  import opened History
  import opened ResponsePolicy

  /** The default `limiar_similaridade`. */
  const SimilarityThreshold: real := 0.5

  /** A keyword dictionary in declaration order (Python dicts iterate in insertion order). */
  type KeywordTable = seq<(string, string)>

  /** The similarity measure, `SequenceMatcher(None, a, b).ratio()`. */
  type Ratio = (string, string) -> Probability

  /** Every category the keyword table can produce has a response entry. */
  predicate KeywordsKnown(keywords: KeywordTable, t: Table)
  {
    forall i :: 0 <= i < |keywords| ==> keywords[i].1 in t
  }

  /** The index of the first keyword, in table order, that occurs in the message. */
  function FirstHit(keywords: KeywordTable, message: string): (r: Option<nat>)
    ensures r.Some? ==> r.value < |keywords| && Contains(message, keywords[r.value].0)
    ensures r.Some? ==> forall j :: 0 <= j < r.value ==> !Contains(message, keywords[j].0)
    ensures r.None? ==> forall j :: 0 <= j < |keywords| ==> !Contains(message, keywords[j].0)
    decreases |keywords|
  {
    if |keywords| == 0 then None
    else if Contains(message, keywords[0].0) then Some(0)
    else match FirstHit(keywords[1..], message)
      case None => None
      case Some(i) => Some(i + 1)
  }

  /** The keyword pass: the category of the first keyword found in the message. */
  function KeywordPass(keywords: KeywordTable, message: string): (r: Option<string>)
    ensures r.Some? ==> exists i :: 0 <= i < |keywords| && r.value == keywords[i].1 && Contains(message, keywords[i].0)
    ensures r.None? <==> forall j :: 0 <= j < |keywords| ==> !Contains(message, keywords[j].0)
  {
    match FirstHit(keywords, message)
    case None => None
    case Some(i) => Some(keywords[i].1)
  }

  /** The keyword pass answers with keyword `i`'s category when `i` is found and no earlier keyword is. */
  lemma KeywordPassFirstWins(keywords: KeywordTable, message: string, i: nat)
    requires i < |keywords| && Contains(message, keywords[i].0)
    requires forall j :: 0 <= j < i ==> !Contains(message, keywords[j].0)
    ensures KeywordPass(keywords, message) == Some(keywords[i].1)
  {
    var r := FirstHit(keywords, message);
    assert r.Some? && r.value <= i;
  }

  /** The similarity of the message to each phrase, over the pairs `zip` produces. */
  function Scores(ratio: Ratio, message: string, kb: Corpus): (r: seq<real>)
    ensures |r| == Min(|kb.phrases|, |kb.categories|)
    ensures forall i :: 0 <= i < |r| ==> r[i] == ratio(message, Lower(kb.phrases[i]))
  {
    seq(Min(|kb.phrases|, |kb.categories|), i requires 0 <= i < Min(|kb.phrases|, |kb.categories|) => ratio(message, Lower(kb.phrases[i])))
  }

  /** The running maximum of the similarity loop and the position it came from. */
  datatype Best = Best(score: real, index: Option<nat>)

  /** Position `i` holds a positive score that no score exceeds and that no earlier score reaches. */
  ghost predicate IsFirstMaximum(scores: seq<real>, i: int)
  {
    && 0 <= i < |scores|
    && scores[i] > 0.0
    && (forall j :: 0 <= j < |scores| ==> scores[j] <= scores[i])
    && (forall j :: 0 <= j < i ==> scores[j] < scores[i])
  }

  /**
   The loop over the known phrases: start at score 0 with no category and take
   a phrase only when its score is strictly greater than the best so far, so the
   first phrase reaching the maximum is kept and all-zero scores keep none.
   */
  function MostSimilar(scores: seq<real>): (b: Best)
    ensures b.score >= 0.0
    ensures forall j :: 0 <= j < |scores| ==> scores[j] <= b.score
    ensures b.index.None? ==> b.score == 0.0
    ensures b.index.Some? ==> IsFirstMaximum(scores, b.index.value) && b.score == scores[b.index.value]
    decreases |scores|
  {
    if |scores| == 0 then Best(0.0, None)
    else
      var previous := MostSimilar(scores[..|scores| - 1]);
      var last := scores[|scores| - 1];
      if last > previous.score then Best(last, Some(|scores| - 1)) else previous
  }

  /** At most one position is the first maximum. */
  lemma FirstMaximumUnique(scores: seq<real>, i: int, j: int)
    requires IsFirstMaximum(scores, i) && IsFirstMaximum(scores, j)
    ensures i == j
  {
  }

  /** The loop keeps no phrase exactly when no score is positive. */
  lemma MostSimilarNoneIffNoPositive(scores: seq<real>)
    ensures MostSimilar(scores).index.None? <==> forall j :: 0 <= j < |scores| ==> scores[j] <= 0.0
  {
  }

  /** The phrase at position `i` is the first maximum, scores at least the threshold, and its category is known. */
  ghost predicate AcceptedAt(t: Table, scores: seq<real>, kb: Corpus, i: int)
  {
    IsFirstMaximum(scores, i) && scores[i] >= SimilarityThreshold && i < |kb.categories| && kb.categories[i] in t
  }

  /**
   The similarity pass: the category of the most similar phrase, if its score
   reaches the threshold and the category has a response entry.
   */
  function SimilarityPass(t: Table, ratio: Ratio, message: string, kb: Corpus): (r: Option<string>)
    ensures r.Some? ==> r.value in t
    ensures r.Some? <==> exists i :: AcceptedAt(t, Scores(ratio, message, kb), kb, i)
  {
    var scores := Scores(ratio, message, kb);
    var best := MostSimilar(scores);
    if best.score >= SimilarityThreshold && best.index.Some? && kb.categories[best.index.value] in t then
      assert AcceptedAt(t, scores, kb, best.index.value);
      Some(kb.categories[best.index.value])
    else
      None
  }

  /**
   The similarity pass in terms of the first maximum alone: when position `i`
   is the first maximum, the pass answers with its category exactly when the
   score reaches the threshold and the category is known, and answers nothing otherwise.
   */
  lemma SimilarityPassAtFirstMaximum(t: Table, ratio: Ratio, message: string, kb: Corpus, i: nat)
    requires IsFirstMaximum(Scores(ratio, message, kb), i)
    ensures var s := Scores(ratio, message, kb);
      SimilarityPass(t, ratio, message, kb) ==
        if s[i] >= SimilarityThreshold && kb.categories[i] in t then Some(kb.categories[i]) else None
  {
    var best := MostSimilar(Scores(ratio, message, kb));
    if best.index.Some? {
      FirstMaximumUnique(Scores(ratio, message, kb), i, best.index.value);
    }
  }

  /** All phrases scoring below the threshold means no similarity match. */
  lemma SimilarityPassBelowThreshold(t: Table, ratio: Ratio, message: string, kb: Corpus)
    requires forall j :: 0 <= j < Min(|kb.phrases|, |kb.categories|) ==> ratio(message, Lower(kb.phrases[j])) < SimilarityThreshold
    ensures SimilarityPass(t, ratio, message, kb) == None
  {
  }

  /**
   A message equal to a lower-cased known phrase, with a ratio that scores
   identical strings 1.0, reaches the maximum score; so the pass answers with
   that phrase's category whenever no earlier phrase also scores 1.0 and the
   category has a response entry.
   */
  lemma IdenticalPhraseMatches(t: Table, ratio: Ratio, kb: Corpus, i: nat)
    requires i < |kb.phrases| && i < |kb.categories|
    requires forall a :: ratio(a, a) == 1.0
    requires forall j :: 0 <= j < i ==> ratio(Lower(kb.phrases[i]), Lower(kb.phrases[j])) < 1.0
    requires kb.categories[i] in t
    ensures SimilarityPass(t, ratio, Lower(kb.phrases[i]), kb) == Some(kb.categories[i])
  {
    var message := Lower(kb.phrases[i]);
    var s := Scores(ratio, message, kb);
    LowerIdempotent(kb.phrases[i]);
    assert s[i] == ratio(message, message) == 1.0;
    assert IsFirstMaximum(s, i);
    SimilarityPassAtFirstMaximum(t, ratio, message, kb, i);
  }

  /** A fallback answer: the reply text and its category (the Python flag is the `Some`). */
  datatype Hit = Hit(text: string, category: string)

  /**
   `obter_resposta_fallback`: lower-case the message, try the keyword pass,
   then the similarity pass; a category found either way is answered with the
   policy's text for it.
   */
  function Fallback(t: Table, keywords: KeywordTable, kb: Corpus, ratio: Ratio, message: string, history: Log): (r: Option<Hit>)
    ensures r.Some? ==> r.value.text == ReplyText(t, r.value.category, history)
    ensures KeywordPass(keywords, Lower(message)).Some? ==>
      r.Some? && r.value.category == KeywordPass(keywords, Lower(message)).value
    ensures KeywordPass(keywords, Lower(message)).None? ==>
      r.Some? == SimilarityPass(t, ratio, Lower(message), kb).Some?
      && (r.Some? ==> r.value.category == SimilarityPass(t, ratio, Lower(message), kb).value)
    ensures KeywordsKnown(keywords, t) && r.Some? ==> r.value.category in t
  {
    var lowered := Lower(message);
    match KeywordPass(keywords, lowered)
    case Some(c) => Some(Hit(ReplyText(t, c, history), c))
    case None =>
      match SimilarityPass(t, ratio, lowered, kb)
      case Some(c) => Some(Hit(ReplyText(t, c, history), c))
      case None => None
  }
}

=== FILE: history.dfy ===
/**
 Per-user conversation histories: one append-only log of turns per user id.
 The JSON files of the source are modelled as a map from user id to log.
 */
module History {
  import opened Options

  /**
   One turn as stored on disk. `category` is optional because a record read
   back from a file need not carry the `categoria` key; `timestamp` is opaque.
   */
  datatype Record = Record(userMessage: string, botResponse: string, category: Option<string>, timestamp: string)

  type Log = seq<Record>

  /** All users' logs, keyed by user id; a user without a file has no key. */
  type Store = map<string, Log>

  /** `carregar_historico_usuario`: the user's log, or the empty log when there is no file. */
  function Load(store: Store, user: string): (h: Log)
    ensures user in store ==> h == store[user]
    ensures user !in store ==> h == []
  {
    if user in store then store[user] else []
  }

  /**
   `salvar_historico_usuario`: load the user's log, append one record, write it
   back. The user's new log is the old one plus the record at the end, and no
   other user's log changes.
   */
  function Append(store: Store, user: string, rec: Record): (s: Store)
    ensures s.Keys == store.Keys + {user}
    ensures Load(s, user) == Load(store, user) + [rec]
    ensures forall u :: u in store && u != user ==> s[u] == store[u]
  {
    store[user := Load(store, user) + [rec]]
  }

  /** After an append the old log is a prefix of the new one, which is one longer and ends with the record. */
  lemma AppendOnly(store: Store, user: string, rec: Record)
    ensures var h := Load(store, user);
      var h' := Load(Append(store, user, rec), user);
      |h'| == |h| + 1 && h <= h' && h'[|h|] == rec
  {
  }

  /** Appending for one user leaves what every other user loads unchanged. */
  lemma AppendIsolatesUsers(store: Store, user: string, other: string, rec: Record)
    requires other != user
    ensures Load(Append(store, user, rec), other) == Load(store, other)
  {
  }
}

=== FILE: knowledge_base.dfy ===
/**
 The knowledge base: the parallel lists of training phrases and their
 categories, the repair applied after loading and the guard applied before
 saving.
 */
module KnowledgeBase {
  import opened Options

  /** The persisted pair `{'frases': ..., 'categorias': ...}`; nothing forces equal lengths. */
  datatype Corpus = Corpus(phrases: seq<string>, categories: seq<string>)
  {
    /** Every phrase has exactly one category. */
    predicate Consistent()
    {
      |phrases| == |categories|
    }
  }

  function Min(a: nat, b: nat): nat
  {
    if a <= b then a else b
  }

  /**
   `verificar_consistencia_dados`: when the lists differ in length both are
   cut to the shorter one, keeping their order; otherwise they are returned as is.
   */
  function Repair(phrases: seq<string>, categories: seq<string>): (r: Corpus)
    ensures r.Consistent()
    ensures |r.phrases| == Min(|phrases|, |categories|)
    ensures r.phrases <= phrases && r.categories <= categories
    ensures |phrases| == |categories| ==> r == Corpus(phrases, categories)
  {
    if |phrases| != |categories| then
      var n := Min(|phrases|, |categories|);
      Corpus(phrases[..n], categories[..n])
    else
      Corpus(phrases, categories)
  }

  /** Repairing a repaired corpus changes nothing: the repair is idempotent. */
  lemma RepairIdempotent(phrases: seq<string>, categories: seq<string>)
    ensures var r := Repair(phrases, categories); Repair(r.phrases, r.categories) == r
  {
  }

  /**
   `salvar_base_conhecimento` as a transition of the persisted store (`None`
   when no file exists yet): mismatched lists are refused and the store is left
   as it was; otherwise the store holds exactly the given lists.
   */
  function Save(stored: Option<Corpus>, phrases: seq<string>, categories: seq<string>): (r: Option<Corpus>)
    ensures |phrases| != |categories| ==> r == stored
    ensures |phrases| == |categories| ==> r == Some(Corpus(phrases, categories))
  {
    if |phrases| != |categories| then stored else Some(Corpus(phrases, categories))
  }

  /** A store that only `Save` has written holds a consistent corpus. */
  lemma SaveKeepsStoreConsistent(stored: Option<Corpus>, phrases: seq<string>, categories: seq<string>)
    requires stored.Some? ==> stored.value.Consistent()
    ensures var r := Save(stored, phrases, categories); r.Some? ==> r.value.Consistent()
  {
  }

  /** Saving and then loading with the repair applied returns what was saved, whenever the save took place. */
  lemma SaveThenRepairRoundTrip(stored: Option<Corpus>, phrases: seq<string>, categories: seq<string>)
    requires |phrases| == |categories|
    ensures var r := Save(stored, phrases, categories);
      r.Some? && Repair(r.value.phrases, r.value.categories) == Corpus(phrases, categories)
  {
  }
}

=== FILE: main_script.dfy ===
/**
 The function version of the chatbot in `main.py`: its response table, its
 25-keyword fallback table, start-up (repair, then train) and the service
 entry point, with the behaviours its tables produce on sample messages.
 */
module MainScript {
  import opened Options
  import opened Text
  import opened KnowledgeBase
  import opened Classifier
  import opened History
  import opened ResponsePolicy
  import opened FallbackMatcher
  import opened Orchestrator

  /** The texts of `RESPOSTAS_PRE_DEFINIDAS`. */
  const GreetingText := "Olá! Seja bem-vindo à nossa clínica. Como posso ajudar você hoje?"
  const HelpText := "Claro! Posso ajudar com  agendamentos, ou dúvidas gerais. O que você precisa?"
  const HelpMore := "Em que mais posso ajudar agora?"
  const InformationText :=
    "📋 **Informações da Clínica:**\n"
    + "• **Horário de Atendimento:** Segunda a Sexta, das 7h às 19h\n"
    + "• **Telefone:** (11) 3333-4444\n"
    + "• **Endereço:** Rua Saúde Perfeita, 123 - Centro\n"
    + "• **WhatsApp:** (11) 98888-7777"
  const InformationMore := "Precisa de mais alguma informação sobre a clínica?"
  const CancellationText :=
    "Poxa, que pena! Para prosseguir com o cancelamento do seu plano, "
    + "preciso transferir você para um de nossos atendentes. "
    + "Aguarde um instante, por favor."
  const CancellationMore :=
    "Entendi sobre o cancelamento. Vou te transferir para um atendente agora. "
    + "Tenha um ótimo dia!"
  const ExamsText := "Nossos serviços de exames incluem:\n• Agendamento de Exames\n• Consulta de Resultados Online\nQual serviço você gostaria de usar?"
  const ExamsMore := "Sobre exames, em que mais posso ajudar?"
  const PricingText := "Para orçamentos e valores, é necessário consultar diretamente na clínica para obter informações precisas sobre preços e planos disponíveis."
  const PricingMore := "Sobre valores e orçamentos, preciso que você consulte diretamente na clínica para informações precisas."
  const UnknownText := "Desculpe, não consegui entender sua pergunta no momento. Você poderia reformular de outra forma?"

  /** `RESPOSTAS_PRE_DEFINIDAS`. */
  const MainResponses: Table := map[
    Greeting := Entry(GreetingText, None),
    Help := Entry(HelpText, Some(HelpMore)),
    Information := Entry(InformationText, Some(InformationMore)),
    Cancellation := Entry(CancellationText, Some(CancellationMore)),
    Exams := Entry(ExamsText, Some(ExamsMore)),
    Pricing := Entry(PricingText, Some(PricingMore)),
    Unknown := Entry(UnknownText, None)
  ]

  /** `palavras_chave_prioritarias` of `obter_resposta_fallback`, in declaration order. */
  const MainKeywords: KeywordTable := [
    ("cancelar", Cancellation), ("cancelamento", Cancellation), ("plano", Cancellation),
    ("exame", Exams), ("resultado", Exams), ("agendar", Exams), ("laboratório", Exams),
    ("horário", Information), ("telefone", Information), ("endereço", Information), ("contato", Information),
    ("ajuda", Help), ("auxílio", Help), ("socorro", Help), ("dúvida", Help),
    ("oi", Greeting), ("olá", Greeting), ("bom dia", Greeting), ("boa tarde", Greeting), ("boa noite", Greeting),
    ("orçamento", Pricing), ("preço", Pricing), ("valor", Pricing), ("quanto custa", Pricing), ("custa", Pricing)
  ]

  /** The module-level state of `main.py`: its tables, the known phrases and the model. */
  function MainBot(kb: Corpus, model: string -> Prediction): (bot: Bot)
    ensures bot.responses == MainResponses && bot.keywords == MainKeywords
    ensures bot.kb == kb && bot.model == model
    ensures WellFormed(bot)
  {
    assert forall i :: 0 <= i < |MainKeywords| ==> MainKeywords[i].1 in MainResponses;
    Bot(MainResponses, MainKeywords, kb, model)
  }

  /**
   Module start-up: load, repair, then take the cached model when one can be
   read (`cached`) or else train (the model loader repairs the lists once more,
   which changes nothing since the repair is idempotent). Any error raised
   while training ends the program (`exit(1)`), modelled as a failure. `fit`
   stands for the library's fitting on the corpus it is given, `None` when the
   library itself raises.
   */
  function Startup(loaded: Corpus, cached: Option<string -> Prediction>, fit: Corpus -> Option<string -> Prediction>): (r: Result<Bot, TrainingError>)
    ensures r.Success? ==> r.value.kb == Repair(loaded.phrases, loaded.categories) && r.value.kb.Consistent() && WellFormed(r.value)
    ensures cached.Some? ==> r.Success? && r.value.model == cached.value
    ensures cached.None? && r.Success? ==> |loaded.phrases| > 0 && |loaded.categories| > 0
    ensures cached.None? ==> (r.Success? <==> |loaded.phrases| > 0 && |loaded.categories| > 0 && fit(Repair(loaded.phrases, loaded.categories)).Some?)
    ensures cached.None? && r.Success? ==> fit(r.value.kb) == Some(r.value.model)
    ensures cached.None? && (|loaded.phrases| == 0 || |loaded.categories| == 0) ==> r == Failure(NoTrainingData)
    ensures cached.None? && |loaded.phrases| > 0 && |loaded.categories| > 0 && fit(Repair(loaded.phrases, loaded.categories)).None?
      ==> r == Failure(FitFailed)
    ensures r.Failure? ==> r.error == NoTrainingData || r.error == FitFailed
  {
    var kb := Repair(loaded.phrases, loaded.categories);
    RepairIdempotent(loaded.phrases, loaded.categories);
    TrainAfterRepair(loaded.phrases, loaded.categories);
    match cached
    case Some(model) => Success(MainBot(kb, model))
    case None =>
      match Train(kb.phrases, kb.categories)
      case Failure(e) => Failure(e)
      case Success(trained) =>
        match fit(trained)
        case None => Failure(FitFailed)
        case Some(model) => Success(MainBot(kb, model))
  }

  /**
   `servico_chatbot_entrada`: the reply carries a category of the response
   table and the policy's text for it, and the user's history grows by one
   record holding the raw message and the reply.
   */
  function ServiceEntry(kb: Corpus, model: string -> Prediction, ratio: Ratio, store: Store, user: string, raw: string, now: string): (r: (Store, Reply))
    ensures r.1 == Respond(MainBot(kb, model), ratio, raw, Load(store, user))
    ensures r.1.category in MainResponses
    ensures r.1.text == ReplyText(MainResponses, r.1.category, Load(store, user))
    ensures Load(r.0, user) == Load(store, user) + [Record(raw, r.1.text, Some(r.1.category), now)]
    ensures forall u :: u != user ==> Load(r.0, u) == Load(store, u)
  {
    var bot := MainBot(kb, model);
    RespondFollowsPolicy(bot, ratio, raw, Load(store, user));
    HandleMessage(bot, ratio, store, user, raw, now)
  }

  /** Every continuation text of the table differs from its initial text, so the policy's choice can be read off the reply. */
  lemma MainContinuationExactlyWhen(category: string, history: Log)
    requires category in MainResponses && MainResponses[category].continuation.Some?
    ensures ReplyText(MainResponses, category, history) == MainResponses[category].continuation.value
      <==> |history| > 0 && InvitesContinuation(LastCategory(history))
  {
    ContinuationExactlyWhen(MainResponses, category, history);
  }

  /** A greeting never gets a continuation text: its entry has none. */
  lemma MainGreetingAlwaysInitial(history: Log)
    ensures ReplyText(MainResponses, Greeting, history) == MainResponses[Greeting].initial
  {
    NoContinuationGivesInitial(MainResponses, Greeting, history);
  }

  /** After a greeting, a request for help gets the help continuation; after a pricing turn it gets the help initial text. */
  lemma MainHelpAfterGreetingOrPricing(m: string, b: string, ts: string)
    ensures ReplyText(MainResponses, Help, [Record(m, b, Some(Greeting), ts)]) == HelpMore
    ensures ReplyText(MainResponses, Help, [Record(m, b, Some(Pricing), ts)]) == MainResponses[Help].initial
  {
  }

  /** "oi, quero cancelar": "cancelar" is declared before "oi", so the cancellation wins. */
  lemma MainKeywordCancelBeatsGreeting()
    ensures KeywordPass(MainKeywords, "oi, quero cancelar") == Some(Cancellation)
  {
    FoundAt("oi, quero cancelar", "cancelar", 10);
    KeywordPassFirstWins(MainKeywords, "oi, quero cancelar", 0);
  }

  /** "quais planos": "plano" is declared before "valor", so a pricing question is routed to cancellation. */
  lemma MainKeywordPlanIsCancellation()
    ensures KeywordPass(MainKeywords, "quais planos") == Some(Cancellation)
  {
    var m := "quais planos";
    MissingChar(m, "cancelar", 0);
    MissingChar(m, "cancelamento", 0);
    FoundAt(m, "plano", 6);
    KeywordPassFirstWins(MainKeywords, m, 2);
  }

  /** "bom dia!" contains none of keywords 0 to 4. */
  lemma BomDiaMissesKeywordsA()
    ensures forall j :: 0 <= j < 5 ==> !Contains("bom dia!", MainKeywords[j].0)
  {
    var m := "bom dia!";
    MissingChar(m, "cancelar", 0);
    MissingChar(m, "cancelamento", 0);
    MissingChar(m, "plano", 0);
    MissingChar(m, "exame", 0);
    MissingChar(m, "resultado", 0);
  }

  /** "bom dia!" contains none of keywords 5 to 9. */
  lemma BomDiaMissesKeywordsB()
    ensures forall j :: 5 <= j < 10 ==> !Contains("bom dia!", MainKeywords[j].0)
  {
    var m := "bom dia!";
    MissingChar(m, "agendar", 1);
    MissingChar(m, "laboratório", 0);
    MissingChar(m, "horário", 0);
    MissingChar(m, "telefone", 0);
    MissingChar(m, "endereço", 0);
  }

  /** "bom dia!" contains none of keywords 10 to 13. */
  lemma BomDiaMissesKeywordsC()
    ensures forall j :: 10 <= j < 14 ==> !Contains("bom dia!", MainKeywords[j].0)
  {
    var m := "bom dia!";
    MissingChar(m, "contato", 0);
    MissingChar(m, "ajuda", 1);
    MissingChar(m, "auxílio", 1);
    MissingChar(m, "socorro", 0);
  }

  /** "bom dia!" contains none of keywords 14 to 16. */
  lemma BomDiaMissesKeywordsD()
    ensures forall j :: 14 <= j < 17 ==> !Contains("bom dia!", MainKeywords[j].0)
  {
    var m := "bom dia!";
    MissingChar(m, "dúvida", 1);
    MissingPair(m, "oi", 0);
    MissingChar(m, "olá", 1);
  }

  /** "bom dia!" contains none of the first seventeen keywords, so it falls to the eighteenth, "bom dia". */
  lemma MainKeywordBomDia()
    ensures KeywordPass(MainKeywords, "bom dia!") == Some(Greeting)
  {
    BomDiaMissesKeywordsA();
    BomDiaMissesKeywordsB();
    BomDiaMissesKeywordsC();
    BomDiaMissesKeywordsD();
    FoundAt("bom dia!", "bom dia", 0);
    KeywordPassFirstWins(MainKeywords, "bom dia!", 17);
  }

  /** Normalising "Bom dia!" only lowers its capital. */
  lemma NormalizeBomDia()
    ensures Normalize("Bom dia!") == "bom dia!"
  {
    assert Strip("Bom dia!") == "Bom dia!";
    assert Lower("Bom dia!") == "bom dia!";
  }

  /**
   First turn of user "alice": "Bom dia!" on an empty history, with a model
   that is either unsure or predicts a greeting, is answered with the greeting's
   initial text from the knowledge base, and alice's history then holds exactly
   that one greeting turn.
   */
  lemma MainFirstTurnGreeting(kb: Corpus, model: string -> Prediction, ratio: Ratio, store: Store, now: string)
    requires "alice" !in store
    requires var p := model("bom dia!"); !Confident(MainBot(kb, model), p) || p.category == Greeting
    ensures var (s, r) := ServiceEntry(kb, model, ratio, store, "alice", "Bom dia!", now);
      && r == Reply(GreetingText, Greeting, true)
      && Load(s, "alice") == [Record("Bom dia!", GreetingText, Some(Greeting), now)]
  {
    var bot := MainBot(kb, model);
    NormalizeBomDia();
    if !Confident(bot, model("bom dia!")) {
      MainKeywordBomDia();
      KeywordPassDecides(bot, ratio, "Bom dia!", [], Greeting);
    }
  }

  /** "preciso de ajuda" contains none of keywords 0 to 2. */
  lemma AjudaMissesKeywordsA()
    ensures forall j :: 0 <= j < 3 ==> !Contains("preciso de ajuda", MainKeywords[j].0)
  {
    var m := "preciso de ajuda";
    MissingChar(m, "cancelar", 2);
    MissingChar(m, "cancelamento", 2);
    MissingChar(m, "plano", 1);
  }

  /** "preciso de ajuda" contains none of keywords 3 to 5. */
  lemma AjudaMissesKeywordsB()
    ensures forall j :: 3 <= j < 6 ==> !Contains("preciso de ajuda", MainKeywords[j].0)
  {
    var m := "preciso de ajuda";
    MissingChar(m, "exame", 1);
    MissingChar(m, "resultado", 5);
    MissingChar(m, "agendar", 1);
  }

  /** "preciso de ajuda" contains none of keywords 6 to 8. */
  lemma AjudaMissesKeywordsC()
    ensures forall j :: 6 <= j < 9 ==> !Contains("preciso de ajuda", MainKeywords[j].0)
  {
    var m := "preciso de ajuda";
    MissingChar(m, "laboratório", 0);
    MissingChar(m, "horário", 0);
    MissingChar(m, "telefone", 0);
  }

  /** "preciso de ajuda" contains none of keywords 9 and 10. */
  lemma AjudaMissesKeywordsD()
    ensures forall j :: 9 <= j < 11 ==> !Contains("preciso de ajuda", MainKeywords[j].0)
  {
    var m := "preciso de ajuda";
    MissingChar(m, "endereço", 1);
    MissingChar(m, "contato", 2);
  }

  /** "preciso de ajuda" contains none of the first eleven keywords, so it falls to the twelfth, "ajuda". */
  lemma MainKeywordAjuda()
    ensures KeywordPass(MainKeywords, "preciso de ajuda") == Some(Help)
  {
    AjudaMissesKeywordsA();
    AjudaMissesKeywordsB();
    AjudaMissesKeywordsC();
    AjudaMissesKeywordsD();
    FoundAt("preciso de ajuda", "ajuda", 11);
    KeywordPassFirstWins(MainKeywords, "preciso de ajuda", 11);
  }

  /** "preciso de ajuda" is already normalised. */
  lemma NormalizePrecisoDeAjuda()
    ensures Normalize("preciso de ajuda") == "preciso de ajuda"
  {
    var m := "preciso de ajuda";
    assert Strip(m) == m;
    LowerFixesLowerCase(m);
  }

  /**
   Second turn of alice: "preciso de ajuda" right after the greeting, with a
   model that is either unsure or predicts help, gets the help continuation text.
   */
  lemma MainSecondTurnHelpContinues(kb: Corpus, model: string -> Prediction, ratio: Ratio, store: Store, r1: string, t1: string, now: string)
    requires Load(store, "alice") == [Record("Bom dia!", r1, Some(Greeting), t1)]
    requires var p := model("preciso de ajuda"); !Confident(MainBot(kb, model), p) || p.category == Help
    ensures var (s, r) := ServiceEntry(kb, model, ratio, store, "alice", "preciso de ajuda", now);
      && r == Reply(HelpMore, Help, true)
      && |Load(s, "alice")| == 2
  {
    var bot := MainBot(kb, model);
    var m := "preciso de ajuda";
    NormalizePrecisoDeAjuda();
    if !Confident(bot, model(m)) {
      MainKeywordAjuda();
      KeywordPassDecides(bot, ratio, m, Load(store, "alice"), Help);
    }
  }
}

=== FILE: options.dfy ===
/** Optional values and results, standing in for Python's `None` and exceptions. */
module Options {

  /** A value that may be missing, like a Python variable that may hold `None`. */
  datatype Option<+T> = None | Some(value: T)

  /** The outcome of an operation that either produces a value or raises. */
  datatype Result<+T, +E> = Success(value: T) | Failure(error: E)
}

=== FILE: orchestrator.dfy ===
/**
 The conversation orchestrator: normalise the message, trust the classifier
 when it is confident about a known category, fall back otherwise, answer
 with the unknown category as a last resort, and record the turn in the
 user's history.
 */
module Orchestrator {
  import opened Options
  import opened Text
  import opened KnowledgeBase
  import opened Classifier
  import opened History
  import opened ResponsePolicy
  import opened FallbackMatcher

  /** The default `limiar_confianca_ml`. */
  const ConfidenceThreshold: real := 0.4

  /**
   The state a running chatbot holds: its response table, its keyword table,
   the (repaired) knowledge base and the trained model, seen as a function from
   a normalised message to a prediction.
   */
  datatype Bot = Bot(responses: Table, keywords: KeywordTable, kb: Corpus, model: string -> Prediction)

  /** Both source tables satisfy this: keyword categories have entries, and the unknown category has no continuation. */
  predicate WellFormed(bot: Bot)
  {
    KeywordsKnown(bot.keywords, bot.responses) && bot.responses[Unknown].continuation.None?
  }

  /** The reply text, the detected category and whether the knowledge base produced it. */
  datatype Reply = Reply(text: string, category: string, usedKnowledgeBase: bool)

  /**
   `mensagem.strip().lower()`: the lower-cased message with its surrounding
   whitespace removed, so a slice of `Lower(raw)` with only whitespace around it.
   */
  function Normalize(raw: string): (m: string)
    ensures exists lo :: StrippedAt(Lower(raw), m, lo)
    ensures |m| <= |raw|
    ensures Lower(m) == m
    ensures |m| > 0 ==> !IsSpace(m[0]) && !IsSpace(m[|m| - 1])
  {
    var stripped := Strip(raw);
    var m := Lower(stripped);
    LowerIdempotent(stripped);
    LowerKeepsSpaces(stripped);
    LowerOfStripped(raw);
    m
  }

  /** The classifier's prediction is used only when it reaches the threshold and names a known category. */
  predicate Confident(bot: Bot, p: Prediction)
    ensures Confident(bot, p) ==> p.category in bot.responses
    ensures p.confidence < ConfidenceThreshold || p.category !in bot.responses ==> !Confident(bot, p)
  {
    p.confidence >= ConfidenceThreshold && p.category in bot.responses
  }

  /** The reply given when nothing matched. */
  function UnknownReply(bot: Bot): (r: Reply)
    ensures r.category == Unknown && !r.usedKnowledgeBase
    ensures r.text == bot.responses[Unknown].initial
  {
    Reply(bot.responses[Unknown].initial, Unknown, false)
  }

  /**
   `classificar_e_responder` / the decision part of `processar_mensagem`: the
   classifier's category when it is confident, otherwise the fallback's answer,
   otherwise the unknown category with the knowledge-base flag cleared.
   */
  function Respond(bot: Bot, ratio: Ratio, raw: string, history: Log): (r: Reply)
    ensures var p := bot.model(Normalize(raw));
      Confident(bot, p) ==> r == Reply(ReplyText(bot.responses, p.category, history), p.category, true)
    ensures var p := bot.model(Normalize(raw));
      var fb := Fallback(bot.responses, bot.keywords, bot.kb, ratio, Normalize(raw), history);
      !Confident(bot, p) ==> (r.usedKnowledgeBase <==> fb.Some?) && (fb.Some? ==> r.category == fb.value.category)
    ensures !r.usedKnowledgeBase ==> r == UnknownReply(bot)
    ensures r.usedKnowledgeBase ==> r.text == ReplyText(bot.responses, r.category, history)
    ensures KeywordsKnown(bot.keywords, bot.responses) ==> r.category in bot.responses
  {
    var message := Normalize(raw);
    var p := bot.model(message);
    if Confident(bot, p) then
      Reply(ReplyText(bot.responses, p.category, history), p.category, true)
    else
      match Fallback(bot.responses, bot.keywords, bot.kb, ratio, message, history)
      case Some(hit) => Reply(hit.text, hit.category, true)
      case None => UnknownReply(bot)
  }

  /** In a well-formed bot every reply is the policy's text for the reply's own category, which has an entry. */
  lemma RespondFollowsPolicy(bot: Bot, ratio: Ratio, raw: string, history: Log)
    requires WellFormed(bot)
    ensures var r := Respond(bot, ratio, raw, history);
      r.category in bot.responses && r.text == ReplyText(bot.responses, r.category, history)
  {
    var r := Respond(bot, ratio, raw, history);
    if !r.usedKnowledgeBase {
      NoContinuationGivesInitial(bot.responses, Unknown, history);
    }
  }

  /**
   When the classifier is not confident, no keyword occurs in the normalised
   message and every phrase scores below the similarity threshold, the reply is
   the unknown one and the knowledge-base flag is false.
   */
  lemma UnmatchedMessageIsUnknown(bot: Bot, ratio: Ratio, raw: string, history: Log)
    requires !Confident(bot, bot.model(Normalize(raw)))
    requires forall j :: 0 <= j < |bot.keywords| ==> !Contains(Normalize(raw), bot.keywords[j].0)
    requires forall j :: 0 <= j < Min(|bot.kb.phrases|, |bot.kb.categories|) ==>
      ratio(Normalize(raw), Lower(bot.kb.phrases[j])) < SimilarityThreshold
    ensures Respond(bot, ratio, raw, history) == UnknownReply(bot)
  {
    var message := Normalize(raw);
    assert Lower(message) == message;
    SimilarityPassBelowThreshold(bot.responses, ratio, message, bot.kb);
  }

  /**
   When the classifier is not confident and the keyword pass finds category
   `c` in the normalised message, the reply carries `c` and the policy's text for it.
   */
  lemma KeywordPassDecides(bot: Bot, ratio: Ratio, raw: string, history: Log, c: string)
    requires !Confident(bot, bot.model(Normalize(raw)))
    requires KeywordPass(bot.keywords, Normalize(raw)) == Some(c)
    ensures Respond(bot, ratio, raw, history) == Reply(ReplyText(bot.responses, c, history), c, true)
  {
    assert Lower(Normalize(raw)) == Normalize(raw);
  }

  /**
   `servico_chatbot_entrada` / `processar_mensagem` as a transition of the
   history store: load the user's history, respond, and append a record with
   the raw message, the reply text, the category and the time `now`.
   */
  function HandleMessage(bot: Bot, ratio: Ratio, store: Store, user: string, raw: string, now: string): (r: (Store, Reply))
    ensures r.1 == Respond(bot, ratio, raw, Load(store, user))
    ensures Load(r.0, user) == Load(store, user) + [Record(raw, r.1.text, Some(r.1.category), now)]
    ensures forall u :: u != user ==> Load(r.0, u) == Load(store, u)
    ensures r.0.Keys == store.Keys + {user}
  {
    var history := Load(store, user);
    var reply := Respond(bot, ratio, raw, history);
    var store' := Append(store, user, Record(raw, reply.text, Some(reply.category), now));
    assert forall u :: u != user ==> Load(store', u) == Load(store, u);
    (store', reply)
  }

  /**
   Two turns by the same user: the second turn sees the first turn's category as
   the last one in its history, so the continuation policy reacts to it.
   */
  lemma SecondTurnSeesFirst(bot: Bot, ratio: Ratio, store: Store, user: string, raw1: string, raw2: string, t1: string, t2: string)
    ensures var (s1, r1) := HandleMessage(bot, ratio, store, user, raw1, t1);
      var (s2, r2) := HandleMessage(bot, ratio, s1, user, raw2, t2);
      LastCategory(Load(s1, user)) == Some(r1.category)
      && r2 == Respond(bot, ratio, raw2, Load(store, user) + [Record(raw1, r1.text, Some(r1.category), t1)])
      && |Load(s2, user)| == |Load(store, user)| + 2
  {
  }
}

=== FILE: response_policy.dfy ===
/**
 The reply-selection policy: a table from category to an initial text and an
 optional continuation text, and the rule that picks one of them from the
 category of the user's previous turn.
 */
module ResponsePolicy {
  import opened Options
  import opened History

  const Greeting := "SAUDAÇÃO"
  const Help := "AJUDA"
  const Information := "INFORMAÇÃO"
  const Cancellation := "CANCELAMENTO"
  const Exams := "EXAMES"
  const Pricing := "VALORES"
  /** The synthetic category used when nothing matched. */
  const Unknown := "DESCONHECIDO"

  /** One entry of the table: the `"initial"` text and, maybe, the `"continuation"` text. */
  datatype Entry = Entry(initial: string, continuation: Option<string>)

  /** A response table. Both tables of the source have an entry for the unknown category, which the policy reads unconditionally. */
  type Table = t: map<string, Entry> | Unknown in t witness map[Unknown := Entry("", None)]

  /** The category of the most recent turn, if there is one and it records a category. */
  function LastCategory(history: Log): (c: Option<string>)
    ensures |history| == 0 ==> c == None
    ensures |history| > 0 ==> c == history[|history| - 1].category
  {
    if |history| == 0 then None else history[|history| - 1].category
  }

  /** The previous categories after which a continuation text is preferred. */
  predicate InvitesContinuation(previous: Option<string>)
  {
    previous == Some(Greeting) || previous == Some(Help)
  }

  /** The policy picks the continuation text for `category` after `history`. */
  predicate UsesContinuation(t: Table, category: string, history: Log)
  {
    && category in t
    && |history| > 0
    && t[category].continuation.Some?
    && InvitesContinuation(LastCategory(history))
  }

  /**
   `obter_texto_resposta`: an unknown category gets the unknown category's
   initial text; a first turn gets the category's initial text; later turns get
   the continuation text when the category has one and the previous turn was a
   greeting or a request for help, and the initial text otherwise.
   */
  function ReplyText(t: Table, category: string, history: Log): (r: string)
    ensures category !in t ==> r == t[Unknown].initial
    ensures category in t && |history| == 0 ==> r == t[category].initial
    ensures UsesContinuation(t, category, history) ==> r == t[category].continuation.value
    ensures category in t && !UsesContinuation(t, category, history) ==> r == t[category].initial
  {
    if category !in t then t[Unknown].initial
    else if |history| == 0 then t[category].initial
    else
      var entry := t[category];
      if entry.continuation.Some? && InvitesContinuation(LastCategory(history)) then entry.continuation.value
      else entry.initial
  }

  /** Every reply text is one of the texts of the table. */
  lemma ReplyTextFromTable(t: Table, category: string, history: Log)
    ensures var r := ReplyText(t, category, history);
      exists c :: c in t && (r == t[c].initial || t[c].continuation == Some(r))
  {
    var r := ReplyText(t, category, history);
    if category !in t {
      assert r == t[Unknown].initial;
    } else {
      assert r == t[category].initial || t[category].continuation == Some(r);
    }
  }

  /** The reply depends on the history only through the category of its last turn. */
  lemma ReplyDependsOnlyOnLastCategory(t: Table, category: string, h1: Log, h2: Log)
    requires |h1| > 0 && |h2| > 0
    requires h1[|h1| - 1].category == h2[|h2| - 1].category
    ensures ReplyText(t, category, h1) == ReplyText(t, category, h2)
  {
  }

  /** A previous turn without a recorded category never triggers a continuation. */
  lemma MissingCategoryGivesInitial(t: Table, category: string, history: Log)
    requires category in t
    requires |history| > 0 && history[|history| - 1].category == None
    ensures ReplyText(t, category, history) == t[category].initial
  {
  }

  /** A category whose entry has no continuation always gets its initial text. */
  lemma NoContinuationGivesInitial(t: Table, category: string, history: Log)
    requires category in t && t[category].continuation == None
    ensures ReplyText(t, category, history) == t[category].initial
  {
  }

  /** In a table whose continuation texts differ from their initial texts, the continuation is chosen exactly when the policy says so. */
  lemma ContinuationExactlyWhen(t: Table, category: string, history: Log)
    requires category in t
    requires t[category].continuation.Some? ==> t[category].continuation.value != t[category].initial
    ensures t[category].continuation.Some? ==>
      (ReplyText(t, category, history) == t[category].continuation.value <==> UsesContinuation(t, category, history))
  {
  }
}

=== FILE: text.dfy ===
/**
 The string primitives the pipeline relies on: Python's `str.strip()`,
 `str.lower()` and the substring test `needle in haystack`.
 */
module Text {

  /** The characters Python's `str.isspace()` accepts, hence the ones `strip()` removes. */
  predicate IsSpace(c: char)
  {
    || ('\t' <= c <= '\r')
    || ('\U{1C}' <= c <= ' ')
    || c == '\U{85}' || c == '\U{A0}' || c == '\U{1680}'
    || ('\U{2000}' <= c <= '\U{200A}')
    || c == '\U{2028}' || c == '\U{2029}' || c == '\U{202F}' || c == '\U{205F}' || c == '\U{3000}'
  }

  /** The first index at or after `i` that does not hold whitespace (or `|s|`). */
  function SkipSpaces(s: string, i: nat): (k: nat)
    requires i <= |s|
    ensures i <= k <= |s|
    ensures forall j :: i <= j < k ==> IsSpace(s[j])
    ensures k < |s| ==> !IsSpace(s[k])
    decreases |s| - i
  {
    if i < |s| && IsSpace(s[i]) then SkipSpaces(s, i + 1) else i
  }

  /** The end of `s[lo..hi]` once its trailing whitespace is dropped. */
  function SkipSpacesBack(s: string, lo: nat, hi: nat): (k: nat)
    requires lo <= hi <= |s|
    ensures lo <= k <= hi
    ensures forall j :: k <= j < hi ==> IsSpace(s[j])
    ensures k > lo ==> !IsSpace(s[k - 1])
    decreases hi
  {
    if hi > lo && IsSpace(s[hi - 1]) then SkipSpacesBack(s, lo, hi - 1) else hi
  }

  /** `r` is the slice `s[lo..lo + |r|]` and everything of `s` around it is whitespace. */
  ghost predicate StrippedAt(s: string, r: string, lo: int)
  {
    && 0 <= lo <= |s| - |r|
    && r == s[lo..lo + |r|]
    && (forall i :: 0 <= i < lo ==> IsSpace(s[i]))
    && (forall i :: lo + |r| <= i < |s| ==> IsSpace(s[i]))
  }

  /** Python's `s.strip()`: the longest slice of `s` that neither starts nor ends with whitespace. */
  function Strip(s: string): (r: string)
    ensures exists lo :: StrippedAt(s, r, lo)
    ensures |r| > 0 ==> !IsSpace(r[0]) && !IsSpace(r[|r| - 1])
  {
    var lo := SkipSpaces(s, 0);
    var hi := SkipSpacesBack(s, lo, |s|);
    assert StrippedAt(s, s[lo..hi], lo);
    s[lo..hi]
  }

  /** Stripping twice is stripping once. */
  lemma StripIdempotent(s: string)
    ensures Strip(Strip(s)) == Strip(s)
  {
    var r := Strip(s);
    var lo :| StrippedAt(r, Strip(r), lo);
    if |r| > 0 {
      assert !IsSpace(r[0]) && !IsSpace(r[|r| - 1]);
    }
  }

  /** The upper-case letters `lower()` rewrites: ASCII `A`-`Z` and the Latin-1 capitals except `×`. */
  predicate IsUpper(c: char)
  {
    ('A' <= c <= 'Z') || ('\U{C0}' <= c <= '\U{DE}' && c != '\U{D7}')
  }

  function LowerChar(c: char): (d: char)
    ensures !IsUpper(d)
    ensures IsUpper(c) ==> d as int == c as int + 32
    ensures !IsUpper(c) ==> d == c
  {
    if IsUpper(c) then (c as int + 32) as char else c
  }

  /** Lower-casing neither creates nor removes whitespace. */
  lemma LowerCharKeepsSpace(c: char)
    ensures IsSpace(LowerChar(c)) <==> IsSpace(c)
  {
  }

  /** Python's `s.lower()`, restricted to the Latin-1 range. */
  function Lower(s: string): (r: string)
    ensures |r| == |s|
    ensures forall i :: 0 <= i < |s| ==> r[i] == LowerChar(s[i])
    ensures forall i :: 0 <= i < |r| ==> !IsUpper(r[i])
  {
    seq(|s|, i requires 0 <= i < |s| => LowerChar(s[i]))
  }

  /** Lower-casing a string leaves its whitespace exactly where it was. */
  lemma LowerKeepsSpaces(s: string)
    ensures forall i :: 0 <= i < |s| ==> (IsSpace(Lower(s)[i]) <==> IsSpace(s[i]))
  {
    forall i | 0 <= i < |s|
      ensures IsSpace(Lower(s)[i]) <==> IsSpace(s[i])
    {
      LowerCharKeepsSpace(s[i]);
    }
  }

  /** A string without capitals is its own lower-case form. */
  lemma {:induction false} LowerFixesLowerCase(s: string)
    requires forall i :: 0 <= i < |s| ==> !IsUpper(s[i])
    ensures Lower(s) == s
  {
    assert forall i :: 0 <= i < |s| ==> Lower(s)[i] == s[i];
  }

  /** `lower()` is idempotent, so lower-casing an already normalised message again changes nothing. */
  lemma LowerIdempotent(s: string)
    ensures Lower(Lower(s)) == Lower(s)
  {
    LowerFixesLowerCase(Lower(s));
  }

  /** Lower-casing commutes with slicing. */
  lemma LowerSlice(s: string, a: nat, b: nat)
    requires a <= b <= |s|
    ensures Lower(s[a..b]) == Lower(s)[a..b]
  {
  }

  /** Lower-casing the stripped string gives a slice of the lower-cased string with only whitespace around it. */
  lemma LowerOfStripped(s: string)
    ensures exists lo :: StrippedAt(Lower(s), Lower(Strip(s)), lo)
  {
    var r := Strip(s);
    var lo :| StrippedAt(s, r, lo);
    LowerSlice(s, lo, lo + |r|);
    LowerKeepsSpaces(s);
    assert StrippedAt(Lower(s), Lower(r), lo);
  }

  /** `needle` sits in `haystack` starting at index `i`. */
  predicate OccursAt(needle: string, haystack: string, i: int)
  {
    0 <= i && i + |needle| <= |haystack| && haystack[i..i + |needle|] == needle
  }

  /** Python's `needle in haystack` on strings: the needle occurs at some index. The empty needle occurs everywhere. */
  predicate Contains(haystack: string, needle: string)
    ensures Contains(haystack, needle) ==> |needle| <= |haystack|
    ensures |needle| == 0 ==> Contains(haystack, needle)
  {
    assert |needle| == 0 ==> OccursAt(needle, haystack, 0);
    exists i | 0 <= i <= |haystack| - |needle| :: OccursAt(needle, haystack, i)
  }

  /** A needle found at a known index is contained. */
  lemma FoundAt(haystack: string, needle: string, i: nat)
    requires i + |needle| <= |haystack| && haystack[i..i + |needle|] == needle
    ensures Contains(haystack, needle)
  {
    assert OccursAt(needle, haystack, i);
  }

  /** A needle with a character the haystack lacks is not contained. */
  lemma MissingChar(haystack: string, needle: string, j: nat)
    requires j < |needle| && needle[j] !in haystack
    ensures !Contains(haystack, needle)
  {
    forall i | 0 <= i <= |haystack| - |needle|
      ensures !OccursAt(needle, haystack, i)
    {
      assert haystack[i..i + |needle|][j] == haystack[i + j];
    }
  }

  /** A needle with two adjacent characters that never appear adjacently in the haystack is not contained. */
  lemma MissingPair(haystack: string, needle: string, j: nat)
    requires j + 1 < |needle|
    requires forall i :: 0 <= i < |haystack| - 1 ==> !(haystack[i] == needle[j] && haystack[i + 1] == needle[j + 1])
    ensures !Contains(haystack, needle)
  {
    forall i | 0 <= i <= |haystack| - |needle|
      ensures !OccursAt(needle, haystack, i)
    {
      assert haystack[i..i + |needle|][j] == haystack[i + j];
      assert haystack[i..i + |needle|][j + 1] == haystack[i + j + 1];
    }
  }
}
